=== FILE: README.md ===
# CartBot safety state machine in Dafny

This project models the control core of the CartBot firmware, which runs a small
motorised cart from an Arduino. Each tick of the main loop does three things. It
samples a joystick (X and Y), the battery voltage and the enable-button line. It
runs the current operating state's transition rules. Then it computes the motor
outputs of whichever state is current afterwards. Battery and enable readings go
through a 50-sample ring-buffer average. The Enabled state drives the two motors
through a differential mixer. The Test state drives them through a three-level
mapping and cycles a diagnostic display with a debounced push button.

There are two firmware variants, and both are modelled:

- **CartBotControl** (`cartbot_control.dfy`) has seven states: PowerOn, Init, Disabled,
  Enabled, ControlFault, BatteryFault and Test. Its deadband is 85.
- **CartBotMain** (`cartbot_main.dfy`) is the older six-state variant. It has no Test
  state, its PowerOn only times out, and its deadband is 77.

Shared pieces:

- `hardware.dfy`: constants.
- `cmath.dfy`: C's truncating `/` and `%`.
- `filter.dfy`: the averaging ring.
- `cart.dfy`: the context of `CartBot.cpp`. This is the sensor readings, the
  predicates, the abstract motors, the state timer and the fuel gauge.
- `mixer.dfy`: the Enabled-state mixer.
- `testmode.dfy`: the debouncer and the Test-state motor mapping.
- `format.dfy`: `itoa4`.

Everything is a pure function over immutable datatypes. The static state objects
become a `StateId` value. The singleton context becomes an explicit `Bot` record.
A tick is `Tick(bot, inputs)`, following `CartBot::Run`: read and filter, then
`UpdateState`, then `UpdateOutputs` of the new current state. `millis()`,
`analogRead` and `digitalRead` are inputs of the tick. The model starts from
`Boot(now)`, which is the cart just after PowerOn has been entered.

Notes on the modelling:

- **Pulse literal.** `EnabledState::EnterState` writes the literal pulse 15000,
  not 1500, and the model keeps that value. `Tick` proves the effect is confined
  to the tick that enters Enabled: the same tick's `UpdateOutputs` overwrites it
  with the mixer's output, so motors are within [1300, 1800] between ticks.
- **Elapsed time.** `TimeInState` is the unsigned 32-bit difference
  `(now - start) mod 2^32`, wrap-around included.
- **PowerOn in the control variant.** It performs two `ChangeState` calls in one
  tick when the test button is held after the timeout. The second test reads
  PowerOn's own timer. The tick ends in Init, after Test's entry action has
  reset the Test fields.
- **Shared buffer index.** The firmware keeps one `sampleIndex` for both buffers.
  The model gives each ring an index and `Sensors.Valid()` keeps the two equal.
- **CartBotMain's predicates.** CartBotMain's `CartBot.cpp` is not part of this
  model. Its predicates are taken to be those of `CartBotControl/CartBot.cpp`,
  with its own deadband of 77.
- **Integer width.** The two buffer sums in `ReadA2D` are `unsigned long`
  (CartBotControl/CartBot.cpp:100-104) and reach at most 50 * 1023 + 25 = 51175,
  which would not fit a 16-bit `int` but fits 32 bits. Every other intermediate value
  fits the AVR's 16-bit `int` for readings in 0..1023: for example,
  20 * (vbat - 726) in the fuel gauge stays within ±14520. So no integer wrap is
  modelled outside the timer.

## Model

| member | source | states |
|---|---|---|
| CMath.Abs | CartBotControl/CartBot.cpp:153-161 | `abs` returns the magnitude: non-negative and equal to x or -x |
| CMath.TruncDiv | CartBotControl/State.cpp:303-309 | C division by a positive constant rounds toward zero: the remainder a - b*q has the sign of a and magnitude below b |
| CMath.TruncMod | CartBotControl/State.cpp:535-549 | C `%` gives a remainder with the sign of the dividend, below the divisor in magnitude, and recombines with the quotient to the dividend |
| CMath.TruncDivNegate | CartBotControl/State.cpp:303-307 | truncating division is odd: (-a)/b == -(a/b) |
| CMath.TruncDivNonNegative | CartBotControl/State.cpp:533-563 | on non-negative operands C and Euclidean division and remainder agree |
| Filter.Filled | CartBotControl/CartBot.cpp:33-44 | the constructor fills all NUM_SAMPLES slots with one value and starts the index at 0 |
| Filter.Record | CartBotControl/CartBot.cpp:94-98 | a read writes the sample at the old index only, leaves every other slot unchanged, and leaves the index in [0, NUM_SAMPLES) one step further, wrapping to 0 |
| Filter.Wrap | CartBotControl/CartBot.cpp:96-98 | the index wrap lands back inside the ring |
| Filter.WrapIsMod | CartBotControl/CartBot.cpp:96-98 | the firmware's compare-and-reset wrap is reduction modulo NUM_SAMPLES |
| Filter.Offset | CartBotControl/CartBot.cpp:94-98 | every slot is written some number of reads (below NUM_SAMPLES) after a given index |
| Filter.RecordAdvancesIndex | CartBotControl/CartBot.cpp:96-98 | the index advances by one modulo NUM_SAMPLES |
| Filter.SumBounds | CartBotControl/CartBot.cpp:100-105 | a sum of n entries in [lo, hi] lies in [lo*n, hi*n] |
| Filter.Average | CartBotControl/CartBot.cpp:106-107 | the filtered value is the mean rounded half up: avg*N <= sum + N/2 < (avg+1)*N, and it stays in the A/D range |
| Filter.AverageWithinBounds | CartBotControl/CartBot.cpp:100-107 | the average lies between any lower and upper bound of the buffer entries, so between its minimum and maximum |
| Filter.AverageOfConstant | CartBotControl/CartBot.cpp:100-107 | a buffer holding c everywhere averages to exactly c |
| Filter.RecordAll | CartBotControl/CartBot.cpp:94-98 | repeated reads keep the ring well formed |
| Filter.RecordAllContents | CartBotControl/CartBot.cpp:94-98 | up to N reads land in consecutive slots after the start index, untouched slots keep their value, and the index moves by the number of reads |
| Filter.FlushAfterFullWindow | CartBotControl/CartBot.cpp:42-44 | after N reads every slot holds one of the new samples, so none of the initial VBAT_MAX entries remains, and the index is back where it started |
| Filter.SteadyInputSettles | CartBotControl/CartBot.cpp:94-107 | N identical reads make the filter report exactly that value |
| Cart.InitialSensors | CartBotControl/CartBot.cpp:34-45 | the context starts with both buffers full of VBAT_MAX, index 0 and all four readings 0 |
| Cart.ReadA2D | CartBotControl/CartBot.cpp:90-107 | joystick readings are taken raw; battery and enable readings go into their rings at the shared index and are replaced by the new averages, which stay in 0..1023 |
| Cart.FirstReadNeverLowBattery | CartBotControl/CartBot.cpp:42-44 | with the VBAT_MAX pre-fill, the battery cannot read low after the first read, whatever was sampled |
| Cart.IsChargeNeeded | CartBotControl/CartBot.cpp:143-151 | a battery needing charge is always also a low battery, since VBAT_MIN < VBAT_LOW; `Cart.IsLowBattery` (vbat < 774, lines 143-146) is the predicate this implication targets and has no contract of its own |
| Cart.IsEnabled | CartBotControl/CartBot.cpp:153-156 | enable holds iff vbat lies strictly within NUM_SAMPLES counts of venbl |
| Cart.IsJoystickCentered | CartBotControl/CartBot.cpp:158-161 | centred iff both axes lie strictly inside (512 - DEADBAND, 512 + DEADBAND) |
| Cart.DisableMotors | CartBotControl/CartBot.cpp:178-184 | both servos end at 1500 and detached |
| Cart.SetMotorSpeed | CartBotControl/CartBot.cpp:165-176 | both servos end attached at the given pulses |
| Cart.TimeInState | CartBotControl/State.cpp:32-36 | elapsed time is now - start, or now + 2^32 - start when the clock wrapped |
| Cart.GaugeLevel | CartBotControl/CartBot.cpp:204-206 | the last lit cell lies in 0..19; it is 0 iff 20*(vbat-726) < 297, 19 iff 20*(vbat-726) >= 19*297, and otherwise k with 297k <= 20*(vbat-726) < 297(k+1) |
| Cart.GaugeMonotone | CartBotControl/CartBot.cpp:204-206 | a higher battery reading never shows fewer bars |
| Cart.FuelGauge | CartBotControl/CartBot.cpp:200-214 | 20 cells; cell i is non-blank iff i <= level, and lit cells are the vertical glyph iff i % 5 == 0, else the horizontal one |
| Mixer.DeadbandAxis | CartBotControl/State.cpp:287-301 | an axis gives zero iff within the deadband inclusive; positive iff beyond +DEADBAND, negative iff beyond -DEADBAND; its magnitude is the excess over the deadband |
| Mixer.Limit | CartBotControl/State.cpp:303-309 | the result lies in [1300, 1800], equals the input inside that range, and saturates at the nearer limit outside |
| Mixer.LimitMonotone | CartBotControl/State.cpp:303-309 | clamping preserves order |
| Mixer.Mix | CartBotControl/State.cpp:282-312 | each side is 1500 plus the forward term plus (left) or minus (right) a third of the turn term truncated toward zero, clamped to [1300, 1800]; a turn of at least 3 counts makes the sides strictly unequal unless the clamp saturates; turn < 0 gives left <= right, turn > 0 gives left >= right, no turn gives equal sides; a stick within the deadband gives 1500/1500 |
| Mixer.MixMirror | CartBotControl/State.cpp:295-309 | mirroring X about 512 swaps the two sides exactly, which needs the truncating turn/3 |
| Mixer.MixForwardMonotone | CartBotControl/State.cpp:287-309 | pushing Y further forward never slows either side |
| TestMode.Countdown | CartBotControl/State.cpp:491-493 | a non-zero debounce counter drops by exactly one per tick and a zero counter stays at 0, so from any non-negative value it counts strictly down to 0 and stays non-negative |
| TestMode.NextMode | CartBotControl/State.cpp:497-498 | the display mode always changes; from 0..2 it becomes (mode+1) % 3 |
| TestMode.Step | CartBotControl/State.cpp:489-509 | the recorded button state follows the input; the mode changes iff a released-to-pressed edge arrives with the counted-down debounce at 0, and then advances mod 3; every edge sets debounce to 5, otherwise it counts down; mode in 0..2 and debounce in 0..5 are preserved |
| TestMode.StepAll | CartBotControl/State.cpp:489-509 | over many ticks the debouncer's fields stay in range |
| TestMode.HeldButtonNeverAdvances | CartBotControl/State.cpp:483-509 | a button already held, as on entry, never advances the mode however long it stays held |
| TestMode.StepKeepsQuiet | CartBotControl/State.cpp:489-509 | while the guaranteed-quiet count is positive, a tick does not advance and the count drops by at most one |
| TestMode.QuietTicksDoNotAdvance | CartBotControl/State.cpp:489-509 | no advance happens within the guaranteed-quiet number of ticks |
| TestMode.NoDoubleAdvance | CartBotControl/State.cpp:489-509 | after an advance, the next 5 ticks never advance again, whatever the button does (bounce is absorbed) |
| TestMode.Level | CartBotControl/State.cpp:516-518 | the pulse is 1000 iff Y is below the deadband, 2000 iff above it, and 1500 otherwise |
| TestMode.TestDrive | CartBotControl/State.cpp:511-531 | each side is 1000, 1500 or 2000; the left side runs at the Y level exactly when X is below the right edge of the deadband and is 1500 otherwise, the right side symmetrically; with X inside the deadband both sides are equal; with Y in the deadband both are 1500 |
| TestMode.TestDriveMirror | CartBotControl/State.cpp:515-528 | mirroring the stick about mid-scale swaps the left and right test pulses |
| Format.DigitChar | CartBotControl/State.cpp:536 | `'0' + d` is the decimal digit character for 0 <= d <= 9 |
| Format.Itoa4 | CartBotControl/State.cpp:533-563 | the field is always four characters, and "----" when the value has five or more digits (either sign) |
| Format.Itoa4RightAligned | CartBotControl/State.cpp:533-563 | for 0..9999 the field is the decimal digits without leading zeros, right-aligned and blank-padded (0 gives "   0") |
| Format.Itoa4RoundTrip | CartBotControl/State.cpp:533-563 | for 0..9999 the field is blanks followed by digits that read back as the value |
| CartBotControl.Boot | CartBotControl/State.cpp:56-67 | the cart after PowerOn's entry action: constructor-fresh context (`InitialSensors`), motors stopped and detached, and the safety invariant holds |
| CartBotControl.EnterState | CartBotControl/State.cpp:56-487 | entry actions: Enabled writes 15000 to both motors and attaches them; every other state, Test included, disables them; Test's entry resets its fields to mode 0, pressed, debounce 0 |
| CartBotControl.ChangeState | CartBotControl/CartBot.cpp:53-58 | the target becomes current with its timer restarted at now, and its entry action's effects apply |
| CartBotControl.ReenterRestarts | CartBotControl/CartBot.cpp:53-58 | re-entering the same state restarts the timer and re-runs entry, leaving the same cart as a single entry at the later time |
| CartBotControl.PowerOnUpdate | CartBotControl/State.cpp:69-86 | Test is entered iff the button is pressed; Init is entered iff elapsed > 5000, even after Test in the same tick |
| CartBotControl.InitUpdate | CartBotControl/State.cpp:130-154 | charge needed gives BatteryFault; otherwise ControlFault iff enable or off-centre; Disabled iff both are clear and elapsed > 2000 |
| CartBotControl.DisabledUpdate | CartBotControl/State.cpp:198-221 | charge needed gives BatteryFault; otherwise ControlFault iff off-centre; Enabled iff centred and enable held |
| CartBotControl.EnabledUpdate | CartBotControl/State.cpp:264-280 | charge needed gives BatteryFault; otherwise back to Disabled exactly when enable is released |
| CartBotControl.ControlFaultUpdate | CartBotControl/State.cpp:370-387 | charge needed gives BatteryFault; otherwise Init iff enable is released and the stick is centred |
| CartBotControl.Transitions | CartBotControl/State.cpp:69-509 | at most one transition except PowerOn's [Test, Init]; charge needed wins in Init, Disabled, Enabled and ControlFault; Enabled is entered iff from Disabled with charge OK, centred and enabled; BatteryFault and Test never leave |
| CartBotControl.Apply | CartBotControl/State.cpp:76-84 | successive ChangeState calls leave the last target current, with its timer restarted; Test's field reset persists if Test was entered on the way |
| CartBotControl.UpdateState | CartBotControl/CartBot.cpp:68-71 | the state reached is the last transition the current state's rules select, or the current state if they select none, in which case (outside Test) the cart is left exactly as it was, timer included; a state change restarts the timer; in Test only the debouncer runs |
| CartBotControl.UpdateOutputs | CartBotControl/CartBot.cpp:73-76 | Enabled attaches the motors at the mixer's left and right pulses; Test attaches them at the test mapping's pulses; every other state leaves the motors untouched |
| CartBotControl.ControlFaultPrompt | CartBotControl/State.cpp:389-398 | the prompt is a 20-character row; it is the "can't happen" text iff enable is released and the stick is centred |
| CartBotControl.Tick | CartBotControl/CartBot.cpp:60-66 | after a tick: the timer is unchanged if the state is, and restarted at the tick's time if it changed; Enabled was reached only from Disabled or Enabled, with the motors at the mixer's pulses for the new readings, enable held and charge OK; Disabled goes to Enabled iff charge is OK, the stick centred and enable held; Enabled drops to Disabled iff charge is OK and enable released; Test drives at test levels; ControlFault never shows the "can't happen" prompt; charge needed in Init, Disabled, Enabled or ControlFault ends in BatteryFault with motors stopped; BatteryFault and Test persist; the safety invariant is preserved |
| CartBotControl.RunTicks | CartBotControl/CartBot.cpp:60-66 | `Tick` (one `CartBot::Run`) repeated over a sequence of inputs keeps the two sample buffers sharing one index |
| CartBotControl.RunStaysSafe | CartBotControl/CartBot.cpp:60-66 | the safety invariant holds after any number of ticks |
| CartBotControl.BootRunIsSafe | CartBotControl/CartBot.cpp:60-66 | from power-on, motors run only in Enabled (within limits, enable held, charge OK) or Test, after any input history |
| CartBotControl.AbsorbingStates | CartBotControl/State.cpp:436-509 | BatteryFault and Test are never left, and BatteryFault's motors never change |
| CartBotControl.PowerOnDoubleTransition | CartBotControl/State.cpp:69-86 | button held past 5000 ms: the tick ends in Init with a fresh timer, motors stopped and Test's fields reset |
| CartBotMain.Boot | CartBotMain/State.cpp:54-65 | the cart after PowerOn's entry: fresh context, motors stopped, invariant holds |
| CartBotMain.EnterState | CartBotMain/State.cpp:54-414 | Enabled's entry writes 15000 to both motors and attaches them; every other entry disables them |
| CartBotMain.ChangeState | CartBotControl/CartBot.cpp:53-58 | the target becomes current with its timer restarted at now, and its entry effects apply |
| CartBotMain.PowerOnUpdate | CartBotMain/State.cpp:67-76 | PowerOn's only exit is Init, taken iff elapsed > 5000 |
| CartBotMain.InitUpdate | CartBotMain/State.cpp:120-144 | charge needed gives BatteryFault; otherwise ControlFault iff enable or off-centre; Disabled iff both are clear and elapsed > 2000 |
| CartBotMain.DisabledUpdate | CartBotMain/State.cpp:188-211 | charge needed gives BatteryFault; otherwise ControlFault iff off-centre; Enabled iff centred and enabled |
| CartBotMain.EnabledUpdate | CartBotMain/State.cpp:254-270 | charge needed gives BatteryFault; otherwise Disabled exactly when enable is released |
| CartBotMain.ControlFaultUpdate | CartBotMain/State.cpp:356-373 | charge needed gives BatteryFault; otherwise Init iff enable is released and the stick is centred |
| CartBotMain.Transition | CartBotMain/State.cpp:67-419 | a single optional transition per tick; charge needed wins in Init, Disabled, Enabled and ControlFault; Enabled is entered iff from Disabled with charge OK, centred and enabled; BatteryFault never leaves |
| CartBotMain.SameRulesAsControl | CartBotMain/State.cpp:67-419 | outside PowerOn, and in PowerOn with the button up, the six-state rules are the seven-state ones |
| CartBotMain.UpdateState | CartBotControl/CartBot.cpp:68-71 | with no transition selected the cart is unchanged; otherwise the selected state becomes current with a restarted timer |
| CartBotMain.UpdateOutputs | CartBotMain/State.cpp:78-424 | only Enabled writes the motors, attaching them at the mixer's pulses for DEADBAND 77, so 1500/1500 when the stick is centred |
| CartBotMain.Tick | CartBotControl/CartBot.cpp:60-66 | after a tick: the timer is unchanged if the state is, and restarted at the tick's time if it changed; Enabled was reached only from Disabled or Enabled, with the motors at the mixer's pulses, enable held and charge OK; Disabled goes to Enabled iff charge is OK, the stick centred and enable held; Enabled drops to Disabled iff charge is OK and enable released; PowerOn goes only to Init; charge needed ends in BatteryFault with motors stopped; BatteryFault persists; motors are stopped outside Enabled; the invariant is preserved |
| CartBotMain.RunTicks | CartBotControl/CartBot.cpp:60-66 | `Tick` (one `CartBot::Run`) repeated over a sequence of inputs keeps the two sample buffers sharing one index |
| CartBotMain.RunStaysSafe | CartBotControl/CartBot.cpp:60-66 | the safety invariant holds after any number of ticks |
| CartBotMain.BootRunIsSafe | CartBotMain/State.cpp:54-424 | from power-on, PowerOn, Init, Disabled, ControlFault and BatteryFault always have the motors at 1500 and detached |
| CartBotMain.BatteryFaultIsFinal | CartBotMain/State.cpp:416-424 | BatteryFault is never left and its motors never change |

## Left out

- LCD output. This covers the `Display` class, its glyph bitmaps and print cache,
  the splash and status texts of every `EnterState` and `UpdateDisplay`,
  `ShowBatteryStatus`, and `EnabledState::UpdateDisplay`'s cursor writes. It is
  I/O to an external library. Only `itoa4`, the fuel-gauge row and the control
  variant's ControlFault prompt are modelled, as pure functions.
- `TestState::UpdateDisplay`, `ftoa2x1` and `ftoa1x2`: floating point.
- Servo internals (`writeMicroseconds`, `attach` pulse limits). A motor is reduced
  to its last commanded pulse and whether it is attached.
- The cached speed fields of the Enabled and Test objects (`forward`, `turn`,
  `leftSpeed`, `rightSpeed`). Only the display reads them; the commanded pulses
  are in the motor record.
- `SERIAL_DEBUG` logging, the `GetInstance` singleton and the unused `motorsEnabled`
  field.
- `millis()`, `analogRead` and `digitalRead`. They are inputs of `Tick`, and the
  clock is constant within one tick.
- CartBotMain's own `CartBot.cpp` is not part of this model. Its context is taken
  to be the control variant's, with a deadband of 77.
- The startup code that first calls `ChangeState(&powerOnState)`. The model starts
  from `Boot`, with PowerOn just entered.

=== FILE: cart.dfy ===
/** The cart context of CartBot.cpp: the latest joystick readings, the two averaging
    buffers with their filtered values, the derived safety predicates, the abstract
    state of the two drive motors, the per-state timer and the fuel gauge. */
module Cart {
  import opened Hardware
  import opened CMath
  import opened Filter

  /** The four conversions taken at the start of a loop tick. */
  datatype Readings = Readings(joyx: Sample, joyy: Sample, vbat: Sample, venbl: Sample)

  /** Sensor part of the context. The firmware keeps one `sampleIndex` for both
      buffers; here each ring carries it and Valid() keeps the two equal. */
  datatype Sensors = Sensors(
    joyx: int, joyy: int,
    vbatRing: Ring, venblRing: Ring,
    vbat: int, venbl: int)
  {
    predicate Valid() {
      vbatRing.Valid() && venblRing.Valid() && vbatRing.index == venblRing.index
    }
  }

  /** The context as constructed: buffers full of VBAT_MAX, index 0, readings 0. */
  function InitialSensors(): (s: Sensors)
    ensures s.Valid() && s.vbatRing.index == 0
    ensures forall j | 0 <= j < NUM_SAMPLES :: s.vbatRing.samples[j] == VBAT_MAX && s.venblRing.samples[j] == VBAT_MAX
    ensures s.joyx == 0 && s.joyy == 0 && s.vbat == 0 && s.venbl == 0
  {
    Sensors(0, 0, Filled(VBAT_MAX), Filled(VBAT_MAX), 0, 0)
  }

  /** One input step: take the joystick readings as they are, push the battery and
      enable conversions into their buffers and recompute both averages. */
  function ReadA2D(s: Sensors, raw: Readings): (s': Sensors)
    requires s.Valid()
    ensures s'.Valid()
    ensures s'.joyx == raw.joyx && s'.joyy == raw.joyy
    ensures s'.vbatRing == Record(s.vbatRing, raw.vbat) && s'.venblRing == Record(s.venblRing, raw.venbl)
    ensures s'.vbat == Average(s'.vbatRing.samples) && s'.venbl == Average(s'.venblRing.samples)
    ensures 0 <= s'.vbat <= MAX_READING && 0 <= s'.venbl <= MAX_READING
  {
    var vb := Record(s.vbatRing, raw.vbat);
    var ve := Record(s.venblRing, raw.venbl);
    Sensors(raw.joyx, raw.joyy, vb, ve, Average(vb.samples), Average(ve.samples))
  }

  /** Because the buffers start full of VBAT_MAX, the filtered battery reading right
      after the first read is far above the fault threshold, whatever was read. */
  lemma FirstReadNeverLowBattery(raw: Readings)
    ensures !IsLowBattery(ReadA2D(InitialSensors(), raw))
  {
    var s' := ReadA2D(InitialSensors(), raw);
    forall i | 0 <= i < NUM_SAMPLES
      ensures 0 <= s'.vbatRing.samples[i] <= MAX_READING
      ensures i != 0 ==> s'.vbatRing.samples[i] == VBAT_MAX
    {
    }
    var s := s'.vbatRing.samples;
    SumFloor(s);
  }

  /** A buffer of NUM_SAMPLES readings in which only slot 0 may differ from VBAT_MAX
      sums to at least 49 * VBAT_MAX. */
  lemma SumFloor(s: seq<Sample>)
    requires |s| == NUM_SAMPLES
    requires forall i | 1 <= i < NUM_SAMPLES :: s[i] == VBAT_MAX
    ensures Sum(s) >= (NUM_SAMPLES - 1) * VBAT_MAX
  {
    var tail := s[1..];
    assert forall i | 0 <= i < |tail| :: tail[i] == VBAT_MAX;
    SumBounds(tail, VBAT_MAX, VBAT_MAX);
    SumSplitFirst(s);
  }

  lemma {:induction false} SumSplitFirst(s: seq<int>)
    requires s != []
    ensures Sum(s) == s[0] + Sum(s[1..])
  {
    if |s| > 1 {
      SumSplitFirst(s[..|s| - 1]);
      assert s[..|s| - 1][1..] == s[1..][..|s[1..]| - 1];
    }
  }

  ///////////////////////////////////////////////////////////////////
  // Predicates the states consult, recomputed from the current readings.

  predicate IsLowBattery(s: Sensors) {
    s.vbat < VBAT_LOW
  }

  /** A battery low enough to fault is in particular a low battery. */
  predicate IsChargeNeeded(s: Sensors)
    ensures IsChargeNeeded(s) ==> IsLowBattery(s)
  {
    s.vbat < VBAT_MIN
  }

  /** The enable line tracks the battery within the averaging depth. */
  predicate IsEnabled(s: Sensors)
    ensures IsEnabled(s) <==> s.venbl - NUM_SAMPLES < s.vbat < s.venbl + NUM_SAMPLES
  {
    Abs(s.venbl - s.vbat) < NUM_SAMPLES
  }

  /** Both axes strictly inside the deadband around mid-scale. */
  predicate IsJoystickCentered(s: Sensors, deadband: int)
    ensures IsJoystickCentered(s, deadband) <==>
              && CENTER - deadband < s.joyx < CENTER + deadband
              && CENTER - deadband < s.joyy < CENTER + deadband
  {
    Abs(s.joyx - CENTER) < deadband && Abs(s.joyy - CENTER) < deadband
  }

  /** The three predicates the transition rules read, sampled once per evaluation. */
  datatype Readout = Readout(chargeNeeded: bool, enabled: bool, centered: bool)

  function Observe(s: Sensors, deadband: int): (p: Readout)
    ensures p.chargeNeeded == IsChargeNeeded(s) && p.enabled == IsEnabled(s)
    ensures p.centered == IsJoystickCentered(s, deadband)
  {
    Readout(IsChargeNeeded(s), IsEnabled(s), IsJoystickCentered(s, deadband))
  }

  ///////////////////////////////////////////////////////////////////
  // Motors: the Servo objects reduced to their last pulse and attachment.

  datatype Motor = Motor(pulse: int, attached: bool)
  datatype Motors = Motors(left: Motor, right: Motor)

  /** Both servos at neutral and detached, which is what DisableMotors leaves. */
  predicate Stopped(m: Motors) {
    m.left == Motor(NEUTRAL, false) && m.right == Motor(NEUTRAL, false)
  }

  function DisableMotors(): (m: Motors)
    ensures Stopped(m)
  {
    Motors(Motor(NEUTRAL, false), Motor(NEUTRAL, false))
  }

  /** Both servos attached and commanded within the drive limits. */
  predicate Driving(m: Motors) {
    && m.left.attached && m.right.attached
    && REVERSE_LIMIT <= m.left.pulse <= FORWARD_LIMIT
    && REVERSE_LIMIT <= m.right.pulse <= FORWARD_LIMIT
  }

  /** Write both pulses and attach any servo that was detached. */
  function SetMotorSpeed(left: int, right: int): (m: Motors)
    ensures m.left.attached && m.right.attached && !Stopped(m)
    ensures m.left.pulse == left && m.right.pulse == right
  {
    Motors(Motor(left, true), Motor(right, true))
  }

  ///////////////////////////////////////////////////////////////////
  // Per-state timer.

  /** Milliseconds since the state was entered, with the unsigned 32-bit
      subtraction of the firmware: a clock that wrapped past zero still yields
      the true elapsed time. */
  function TimeInState(start: Millis, now: Millis): (elapsed: Millis)
    ensures start <= now ==> elapsed == now - start
    ensures now < start ==> elapsed == now + CLOCK_MODULUS - start
  {
    (now - start) % CLOCK_MODULUS
  }

  ///////////////////////////////////////////////////////////////////
  // Fuel gauge on the bottom LCD row.

  /** Index of the last lit cell: 20 cells across VBAT_MIN..VBAT_MAX, with the
      truncating division of the firmware, clamped to the row. */
  function GaugeLevel(vbat: int): (vbar: int)
    ensures 0 <= vbar <= 19
    ensures vbar == 0 <==> 20 * (vbat - VBAT_MIN) < VBAT_MAX - VBAT_MIN
    ensures vbar == 19 <==> 20 * (vbat - VBAT_MIN) >= 19 * (VBAT_MAX - VBAT_MIN)
    ensures 0 < vbar < 19 ==>
              (VBAT_MAX - VBAT_MIN) * vbar <= 20 * (vbat - VBAT_MIN) < (VBAT_MAX - VBAT_MIN) * (vbar + 1)
  {
    var v := TruncDiv(20 * (vbat - VBAT_MIN), VBAT_MAX - VBAT_MIN);
    var v1 := if v < 0 then 0 else v;
    if v1 > 19 then 19 else v1
  }

  /** More battery never shows fewer bars. */
  lemma GaugeMonotone(a: int, b: int)
    requires a <= b
    ensures GaugeLevel(a) <= GaugeLevel(b)
  {
  }

  /** The 20-character bar: cells up to the level are lit (a vertical tick every
      fifth cell, horizontal strokes between), the rest are blank. */
  method FuelGauge(vbat: int) returns (fuel: seq<char>)
    ensures |fuel| == 20
    ensures forall i | 0 <= i < 20 :: (fuel[i] != ' ' <==> i <= GaugeLevel(vbat))
    ensures forall i | 0 <= i <= GaugeLevel(vbat) ::
              fuel[i] == (if i % 5 == 0 then CHAR_VERTICAL else CHAR_HORIZONTAL)
  {
    var vbar := GaugeLevel(vbat);
    fuel := [];
    var i := 0;
    while i <= vbar
      invariant 0 <= i <= vbar + 1 && |fuel| == i
      invariant forall k | 0 <= k < i :: fuel[k] == (if k % 5 == 0 then CHAR_VERTICAL else CHAR_HORIZONTAL)
    {
      fuel := fuel + [if i % 5 == 0 then CHAR_VERTICAL else CHAR_HORIZONTAL];
      i := i + 1;
    }
    i := vbar + 1;
    while i < 20
      invariant vbar + 1 <= i <= 20 && |fuel| == i
      invariant forall k | 0 <= k <= vbar :: fuel[k] == (if k % 5 == 0 then CHAR_VERTICAL else CHAR_HORIZONTAL)
      invariant forall k | vbar < k < i :: fuel[k] == ' '
    {
      fuel := fuel + [' '];
      i := i + 1;
    }
  }
}

=== FILE: cartbot_control.dfy ===
/** The CartBotControl firmware: seven operating states with entry actions,
    per-tick transition rules and per-state outputs, driven by a loop that reads
    the inputs, evaluates the current state's transitions and then computes the
    outputs of whichever state is current afterwards. */
module CartBotControl {
  import opened Hardware
  import opened Cart
  import opened Mixer
  import opened TestMode

  /** The seven static state objects. */
  datatype StateId = PowerOn | Init | Disabled | Enabled | ControlFault | BatteryFault | Test

  /** What one loop tick observes: four conversions, the active-low test pin read as
      "pressed", and the millisecond clock. */
  datatype Inputs = Inputs(raw: Readings, testPressed: bool, now: Millis)

  /** The cart: current state, when it was entered, sensor context, motors, and the
      Test state's persistent fields (reset only by its entry action). */
  datatype Bot = Bot(state: StateId, startTime: Millis, sensors: Sensors, motors: Motors, test: Debouncer)

  /** Both servos attached at one of the Test state's three pulses. */
  predicate TestLevels(m: Motors) {
    && m.left.attached && m.right.attached
    && m.left.pulse in {TEST_REVERSE, NEUTRAL, TEST_FORWARD}
    && m.right.pulse in {TEST_REVERSE, NEUTRAL, TEST_FORWARD}
  }

  /** The cart as it stands once PowerOn has been entered at time `now`: freshly
      constructed context, motors disabled by PowerOn's entry action, and the Test
      object's zero-initialised fields. */
  function Boot(now: Millis): (b: Bot)
    ensures b.state == PowerOn && b.startTime == now && Stopped(b.motors)
    ensures b.sensors == InitialSensors()
    ensures Safe(b)
  {
    Bot(PowerOn, now, InitialSensors(), DisableMotors(), Debouncer(0, false, 0))
  }

  /** Entry actions, reduced to their effect on the motors and the Test fields:
      Enabled commands the literal pulse 15000 on both sides; Test resets its fields;
      every other state disables the motors (Test does too). */
  function EnterState(b: Bot): (r: Bot)
    ensures r.state == b.state && r.startTime == b.startTime && r.sensors == b.sensors
    ensures b.state == Enabled ==> r.motors == SetMotorSpeed(ENABLED_ENTRY_PULSE, ENABLED_ENTRY_PULSE)
    ensures b.state != Enabled ==> Stopped(r.motors)
    ensures r.test == if b.state == Test then Entry else b.test
  {
    match b.state
    case Enabled => b.(motors := SetMotorSpeed(ENABLED_ENTRY_PULSE, ENABLED_ENTRY_PULSE))
    case Test => b.(motors := DisableMotors(), test := Entry)
    case _ => b.(motors := DisableMotors())
  }

  /** Make `target` current, restart its timer at `now`, then run its entry action. */
  function ChangeState(b: Bot, target: StateId, now: Millis): (r: Bot)
    ensures r.state == target && r.startTime == now && r.sensors == b.sensors
    ensures target == Enabled ==>
              r.motors.left == Motor(ENABLED_ENTRY_PULSE, true) && r.motors.right == Motor(ENABLED_ENTRY_PULSE, true)
    ensures target != Enabled ==> Stopped(r.motors)
    ensures target == Test ==> r.test == Entry
    ensures target != Test ==> r.test == b.test
  {
    EnterState(b.(state := target, startTime := now))
  }

  /** Entering a state again restarts its timer and redoes its entry action: the
      result is that of a single fresh entry at the later time. */
  lemma ReenterRestarts(b: Bot, target: StateId, first: Millis, again: Millis)
    ensures ChangeState(ChangeState(b, target, first), target, again) == ChangeState(b, target, again)
  {
  }

  // Each state's UpdateState, as the ChangeState calls it makes, in order.

  /** PowerOn's two tests are independent (no `else`): a held test button selects
      Test, and an expired timeout then still selects Init, judged on PowerOn's own
      timer, which entering Test did not restart. */
  function PowerOnUpdate(elapsed: Millis, pressed: bool): (ts: seq<StateId>)
    ensures Test in ts <==> pressed
    ensures Init in ts <==> elapsed > POWER_ON_TIME
    ensures ts == [] || ts == [Test] || ts == [Init] || ts == [Test, Init]
  {
    (if pressed then [Test] else []) + (if elapsed > POWER_ON_TIME then [Init] else [])
  }

  /** Battery fault first, then a control fault if enable is held or the stick is off
      centre, then Disabled once the controls stayed clear past INIT_TIME. */
  function InitUpdate(p: Readout, elapsed: Millis): (ts: seq<StateId>)
    ensures p.chargeNeeded ==> ts == [BatteryFault]
    ensures ts == [ControlFault] <==> !p.chargeNeeded && (p.enabled || !p.centered)
    ensures ts == [Disabled] <==> !p.chargeNeeded && !p.enabled && p.centered && elapsed > INIT_TIME
    ensures ts == [] || ts == [BatteryFault] || ts == [ControlFault] || ts == [Disabled]
  {
    if p.chargeNeeded then [BatteryFault]
    else if p.enabled || !p.centered then [ControlFault]
    else if elapsed > INIT_TIME then [Disabled]
    else []
  }

  /** Battery fault first, then a control fault on an off-centre stick, then Enabled
      when the enable line is held. */
  function DisabledUpdate(p: Readout): (ts: seq<StateId>)
    ensures p.chargeNeeded ==> ts == [BatteryFault]
    ensures ts == [ControlFault] <==> !p.chargeNeeded && !p.centered
    ensures ts == [Enabled] <==> !p.chargeNeeded && p.centered && p.enabled
    ensures ts == [] || ts == [BatteryFault] || ts == [ControlFault] || ts == [Enabled]
  {
    if p.chargeNeeded then [BatteryFault]
    else if !p.centered then [ControlFault]
    else if p.enabled then [Enabled]
    else []
  }

  /** Battery fault first; otherwise back to Disabled exactly when enable is released. */
  function EnabledUpdate(p: Readout): (ts: seq<StateId>)
    ensures p.chargeNeeded ==> ts == [BatteryFault]
    ensures ts == [Disabled] <==> !p.chargeNeeded && !p.enabled
    ensures ts == [] <==> !p.chargeNeeded && p.enabled
    ensures ts == [] || ts == [BatteryFault] || ts == [Disabled]
  {
    if p.chargeNeeded then [BatteryFault]
    else if !p.enabled then [Disabled]
    else []
  }

  /** Battery fault first; otherwise back to Init once enable is released and the
      stick is centred. */
  function ControlFaultUpdate(p: Readout): (ts: seq<StateId>)
    ensures p.chargeNeeded ==> ts == [BatteryFault]
    ensures ts == [Init] <==> !p.chargeNeeded && !p.enabled && p.centered
    ensures ts == [] || ts == [BatteryFault] || ts == [Init]
  {
    if p.chargeNeeded then [BatteryFault]
    else if !p.enabled && p.centered then [Init]
    else []
  }

  /** Dispatch on the current state. BatteryFault's UpdateState is empty and Test's
      only runs the debouncer, so neither ever changes state. */
  function Transitions(state: StateId, p: Readout, elapsed: Millis, pressed: bool): (ts: seq<StateId>)
    ensures |ts| <= 1 || (state == PowerOn && ts == [Test, Init])
    ensures state in {Init, Disabled, Enabled, ControlFault} && p.chargeNeeded ==> ts == [BatteryFault]
    ensures BatteryFault in ts ==> p.chargeNeeded
    ensures Enabled in ts <==> state == Disabled && !p.chargeNeeded && p.centered && p.enabled
    ensures ControlFault in ts ==> (state == Init || state == Disabled) && (p.enabled || !p.centered)
    ensures Test in ts ==> state == PowerOn
    ensures state == BatteryFault || state == Test ==> ts == []
  {
    match state
    case PowerOn => PowerOnUpdate(elapsed, pressed)
    case Init => InitUpdate(p, elapsed)
    case Disabled => DisabledUpdate(p)
    case Enabled => EnabledUpdate(p)
    case ControlFault => ControlFaultUpdate(p)
    case BatteryFault => []
    case Test => []
  }

  /** Perform a list of ChangeState calls in order. */
  function Apply(b: Bot, ts: seq<StateId>, now: Millis): (r: Bot)
    ensures r.sensors == b.sensors
    ensures ts == [] ==> r == b
    ensures ts != [] ==> r.state == ts[|ts| - 1] && r.startTime == now
    ensures ts != [] && ts[|ts| - 1] != Enabled ==> Stopped(r.motors)
    ensures Test in ts ==> r.test == Entry
    ensures Test !in ts ==> r.test == b.test
    decreases |ts|
  {
    if ts == [] then b else Apply(ChangeState(b, ts[0], now), ts[1..], now)
  }

  /** The current state's UpdateState: the Test state runs its debouncer, then the
      transitions chosen from the predicates and the time in state are performed. */
  function UpdateState(b: Bot, pressed: bool, now: Millis): (r: Bot)
    ensures r.sensors == b.sensors
    ensures r.state != b.state ==> r.startTime == now
    ensures var ts := Transitions(b.state, Observe(b.sensors, CONTROL_DEADBAND), TimeInState(b.startTime, now), pressed);
              r.state == if ts == [] then b.state else ts[|ts| - 1]
    ensures var ts := Transitions(b.state, Observe(b.sensors, CONTROL_DEADBAND), TimeInState(b.startTime, now), pressed);
              ts == [] && b.state != Test ==> r == b
    ensures b.state == Test ==> r == b.(test := Step(b.test, pressed))
  {
    var ts := Transitions(b.state, Observe(b.sensors, CONTROL_DEADBAND), TimeInState(b.startTime, now), pressed);
    var b' := if b.state == Test then b.(test := Step(b.test, pressed)) else b;
    Apply(b', ts, now)
  }

  /** The current state's UpdateOutputs: Enabled drives through the mixer, Test
      through its three-level mapping; no other state touches the motors. */
  function UpdateOutputs(b: Bot): (r: Bot)
    ensures r.state == b.state && r.startTime == b.startTime && r.sensors == b.sensors && r.test == b.test
    ensures b.state == Enabled ==> Driving(r.motors)
    ensures b.state == Enabled ==>
              var d := Mix(b.sensors.joyx, b.sensors.joyy, CONTROL_DEADBAND);
              r.motors == SetMotorSpeed(d.left, d.right)
    ensures b.state == Test ==> TestLevels(r.motors)
    ensures b.state == Test ==>
              var s := TestDrive(b.sensors.joyx, b.sensors.joyy, CONTROL_DEADBAND);
              r.motors == SetMotorSpeed(s.left, s.right)
    ensures b.state != Enabled && b.state != Test ==> r.motors == b.motors
  {
    match b.state
    case Enabled =>
      var d := Mix(b.sensors.joyx, b.sensors.joyy, CONTROL_DEADBAND);
      b.(motors := SetMotorSpeed(d.left, d.right))
    case Test =>
      var s := TestDrive(b.sensors.joyx, b.sensors.joyy, CONTROL_DEADBAND);
      b.(motors := SetMotorSpeed(s.left, s.right))
    case _ => b
  }

  const KRAKEN: string := " release the kraken "

  /** Second LCD row written by ControlFault's UpdateOutputs. */
  function ControlFaultPrompt(s: Sensors): (line: string)
    ensures |line| == 20
    ensures line == KRAKEN <==> !IsEnabled(s) && IsJoystickCentered(s, CONTROL_DEADBAND)
  {
    if IsEnabled(s) then " release the button "
    else if !IsJoystickCentered(s, CONTROL_DEADBAND) then "release the joystick"
    else KRAKEN
  }

  /** What holds between ticks: motors run only in Enabled (within the drive limits,
      with the enable line held and the battery above the fault level) and in Test
      (at the three test pulses); ControlFault is only ever shown with a reason. */
  predicate Safe(b: Bot) {
    && b.sensors.Valid()
    && b.test.Valid()
    && (b.state != Enabled && b.state != Test ==> Stopped(b.motors))
    && (b.state == Enabled ==> Driving(b.motors) && !IsChargeNeeded(b.sensors) && IsEnabled(b.sensors))
    && (b.state == Test ==> TestLevels(b.motors))
    && (b.state == ControlFault ==> ControlFaultPrompt(b.sensors) != KRAKEN)
  }

  /** One pass of the main loop: read and filter the inputs, run the current state's
      UpdateState, then the UpdateOutputs of the state that is current afterwards. */
  function Tick(b: Bot, input: Inputs): (r: Bot)
    requires b.sensors.Valid()
    ensures r.sensors == ReadA2D(b.sensors, input.raw)
    ensures r.state == Enabled ==> b.state == Disabled || b.state == Enabled
    ensures r.state == Enabled ==> Driving(r.motors) && !IsChargeNeeded(r.sensors) && IsEnabled(r.sensors)
    ensures r.state == Test ==> TestLevels(r.motors)
    ensures r.state == ControlFault ==> ControlFaultPrompt(r.sensors) != KRAKEN
    ensures b.state in {Init, Disabled, Enabled, ControlFault} && IsChargeNeeded(r.sensors) ==>
              r.state == BatteryFault && Stopped(r.motors)
    ensures b.state == BatteryFault ==> r.state == BatteryFault && r.motors == b.motors
    ensures b.state == Test ==> r.state == Test && r.test == Step(b.test, input.testPressed)
    ensures r.state == b.state ==> r.startTime == b.startTime
    ensures r.state != b.state ==> r.startTime == input.now
    ensures b.state == Disabled ==>
              (r.state == Enabled <==>
                 !IsChargeNeeded(r.sensors) && IsJoystickCentered(r.sensors, CONTROL_DEADBAND) && IsEnabled(r.sensors))
    ensures b.state == Enabled ==>
              (r.state == Disabled <==> !IsChargeNeeded(r.sensors) && !IsEnabled(r.sensors))
    ensures r.state == Enabled ==>
              var d := Mix(r.sensors.joyx, r.sensors.joyy, CONTROL_DEADBAND);
              r.motors == SetMotorSpeed(d.left, d.right)
    ensures r.state != Enabled && r.state != Test && r.state != b.state ==> Stopped(r.motors)
    ensures Safe(b) ==> Safe(r)
  {
    var read := b.(sensors := ReadA2D(b.sensors, input.raw));
    UpdateOutputs(UpdateState(read, input.testPressed, input.now))
  }

  /** The loop over a sequence of ticks. */
  function RunTicks(b: Bot, inputs: seq<Inputs>): (r: Bot)
    requires b.sensors.Valid()
    ensures r.sensors.Valid()
    decreases |inputs|
  {
    if inputs == [] then b else RunTicks(Tick(b, inputs[0]), inputs[1..])
  }

  /** From power-on, every state reached keeps the motor safety invariant. */
  lemma {:induction false} RunStaysSafe(b: Bot, inputs: seq<Inputs>)
    requires Safe(b)
    ensures Safe(RunTicks(b, inputs))
    decreases |inputs|
  {
    if inputs != [] {
      RunStaysSafe(Tick(b, inputs[0]), inputs[1..]);
    }
  }

  lemma BootRunIsSafe(now: Millis, inputs: seq<Inputs>)
    ensures Safe(RunTicks(Boot(now), inputs))
  {
    RunStaysSafe(Boot(now), inputs);
  }

  /** BatteryFault and Test are never left, and BatteryFault keeps the motors stopped. */
  lemma {:induction false} AbsorbingStates(b: Bot, inputs: seq<Inputs>)
    requires b.sensors.Valid()
    requires b.state == BatteryFault || b.state == Test
    ensures RunTicks(b, inputs).state == b.state
    ensures b.state == BatteryFault ==> RunTicks(b, inputs).motors == b.motors
    decreases |inputs|
  {
    if inputs != [] {
      AbsorbingStates(Tick(b, inputs[0]), inputs[1..]);
    }
  }

  /** With the test button held past the power-on delay, PowerOn enters Test and then
      Init in the same tick: the cart ends in Init, motors stopped, with the Test
      fields freshly reset by the entry action that did run. */
  lemma PowerOnDoubleTransition(b: Bot, input: Inputs)
    requires b.sensors.Valid() && b.state == PowerOn
    requires input.testPressed && TimeInState(b.startTime, input.now) > POWER_ON_TIME
    ensures Tick(b, input).state == Init
    ensures Tick(b, input).startTime == input.now
    ensures Tick(b, input).test == Entry && Stopped(Tick(b, input).motors)
  {
  }
}

=== FILE: cartbot_main.dfy ===
/** The older CartBotMain firmware: the same loop and safety rules with six states
    (no Test state), a PowerOn state that only times out, and a narrower joystick
    deadband of 77 counts. Its cart context is taken to be the control firmware's,
    with that deadband. */
module CartBotMain {
  import opened Hardware
  import opened Cart
  import opened Mixer
  import CartBotControl

  datatype StateId = PowerOn | Init | Disabled | Enabled | ControlFault | BatteryFault

  /** What one loop tick observes: four conversions and the millisecond clock. */
  datatype Inputs = Inputs(raw: Readings, now: Millis)

  datatype Bot = Bot(state: StateId, startTime: Millis, sensors: Sensors, motors: Motors)

  /** The cart as it stands once PowerOn has been entered at time `now`. */
  function Boot(now: Millis): (b: Bot)
    ensures b.state == PowerOn && b.startTime == now && Stopped(b.motors)
    ensures b.sensors == InitialSensors()
    ensures Safe(b)
  {
    Bot(PowerOn, now, InitialSensors(), DisableMotors())
  }

  /** Entry actions, reduced to their effect on the motors: Enabled commands the
      literal pulse 15000 on both sides, every other state disables the motors. */
  function EnterState(b: Bot): (r: Bot)
    ensures r.state == b.state && r.startTime == b.startTime && r.sensors == b.sensors
    ensures b.state == Enabled ==> r.motors == SetMotorSpeed(ENABLED_ENTRY_PULSE, ENABLED_ENTRY_PULSE)
    ensures b.state != Enabled ==> Stopped(r.motors)
  {
    if b.state == Enabled then b.(motors := SetMotorSpeed(ENABLED_ENTRY_PULSE, ENABLED_ENTRY_PULSE))
    else b.(motors := DisableMotors())
  }

  /** Make `target` current, restart its timer at `now`, then run its entry action. */
  function ChangeState(b: Bot, target: StateId, now: Millis): (r: Bot)
    ensures r.state == target && r.startTime == now && r.sensors == b.sensors
    ensures target == Enabled ==>
              r.motors.left == Motor(ENABLED_ENTRY_PULSE, true) && r.motors.right == Motor(ENABLED_ENTRY_PULSE, true)
    ensures target != Enabled ==> Stopped(r.motors)
  {
    EnterState(b.(state := target, startTime := now))
  }

  /** The transition one UpdateState makes, if any. */
  datatype Option = None | Some(target: StateId)

  // Each state's UpdateState. Every one is an if/else-if chain, so a tick makes at
  // most one transition.

  /** PowerOn only times out, into Init. */
  function PowerOnUpdate(elapsed: Millis): (next: Option)
    ensures next == Some(Init) <==> elapsed > POWER_ON_TIME
    ensures next == None || next == Some(Init)
  {
    if elapsed > POWER_ON_TIME then Some(Init) else None
  }

  /** Battery fault first, then a control fault if enable is held or the stick is off
      centre, then Disabled once the controls stayed clear past INIT_TIME. */
  function InitUpdate(p: Readout, elapsed: Millis): (next: Option)
    ensures p.chargeNeeded ==> next == Some(BatteryFault)
    ensures next == Some(ControlFault) <==> !p.chargeNeeded && (p.enabled || !p.centered)
    ensures next == Some(Disabled) <==> !p.chargeNeeded && !p.enabled && p.centered && elapsed > INIT_TIME
    ensures next in {None, Some(BatteryFault), Some(ControlFault), Some(Disabled)}
  {
    if p.chargeNeeded then Some(BatteryFault)
    else if p.enabled || !p.centered then Some(ControlFault)
    else if elapsed > INIT_TIME then Some(Disabled)
    else None
  }

  /** Battery fault first, then a control fault on an off-centre stick, then Enabled
      when the enable line is held. */
  function DisabledUpdate(p: Readout): (next: Option)
    ensures p.chargeNeeded ==> next == Some(BatteryFault)
    ensures next == Some(ControlFault) <==> !p.chargeNeeded && !p.centered
    ensures next == Some(Enabled) <==> !p.chargeNeeded && p.centered && p.enabled
    ensures next in {None, Some(BatteryFault), Some(ControlFault), Some(Enabled)}
  {
    if p.chargeNeeded then Some(BatteryFault)
    else if !p.centered then Some(ControlFault)
    else if p.enabled then Some(Enabled)
    else None
  }

  /** Battery fault first; otherwise back to Disabled exactly when enable is released. */
  function EnabledUpdate(p: Readout): (next: Option)
    ensures p.chargeNeeded ==> next == Some(BatteryFault)
    ensures next == Some(Disabled) <==> !p.chargeNeeded && !p.enabled
    ensures next == None <==> !p.chargeNeeded && p.enabled
    ensures next in {None, Some(BatteryFault), Some(Disabled)}
  {
    if p.chargeNeeded then Some(BatteryFault)
    else if !p.enabled then Some(Disabled)
    else None
  }

  /** Battery fault first; otherwise back to Init once enable is released and the
      stick is centred. */
  function ControlFaultUpdate(p: Readout): (next: Option)
    ensures p.chargeNeeded ==> next == Some(BatteryFault)
    ensures next == Some(Init) <==> !p.chargeNeeded && !p.enabled && p.centered
    ensures next in {None, Some(BatteryFault), Some(Init)}
  {
    if p.chargeNeeded then Some(BatteryFault)
    else if !p.enabled && p.centered then Some(Init)
    else None
  }

  /** Dispatch on the current state; BatteryFault's UpdateState is empty. */
  function Transition(state: StateId, p: Readout, elapsed: Millis): (next: Option)
    ensures state in {Init, Disabled, Enabled, ControlFault} && p.chargeNeeded ==> next == Some(BatteryFault)
    ensures next == Some(BatteryFault) ==> p.chargeNeeded
    ensures next == Some(Enabled) <==> state == Disabled && !p.chargeNeeded && p.centered && p.enabled
    ensures next == Some(ControlFault) ==> (state == Init || state == Disabled) && (p.enabled || !p.centered)
    ensures next != Some(PowerOn)
    ensures state == BatteryFault ==> next == None
  {
    match state
    case PowerOn => PowerOnUpdate(elapsed)
    case Init => InitUpdate(p, elapsed)
    case Disabled => DisabledUpdate(p)
    case Enabled => EnabledUpdate(p)
    case ControlFault => ControlFaultUpdate(p)
    case BatteryFault => None
  }

  /** The same state in the seven-state firmware. */
  function Counterpart(s: StateId): CartBotControl.StateId
  {
    match s
    case PowerOn => CartBotControl.PowerOn
    case Init => CartBotControl.Init
    case Disabled => CartBotControl.Disabled
    case Enabled => CartBotControl.Enabled
    case ControlFault => CartBotControl.ControlFault
    case BatteryFault => CartBotControl.BatteryFault
  }

  /** Outside PowerOn both firmwares apply the same rules to the same predicate values
      (only the deadband behind `centered` differs); in PowerOn they agree whenever
      the test button is up. */
  lemma SameRulesAsControl(state: StateId, p: Readout, elapsed: Millis, pressed: bool)
    requires state != PowerOn || !pressed
    ensures CartBotControl.Transitions(Counterpart(state), p, elapsed, pressed) ==
              match Transition(state, p, elapsed)
              case None => []
              case Some(t) => [Counterpart(t)]
  {
  }

  function UpdateState(b: Bot, now: Millis): (r: Bot)
    ensures r.sensors == b.sensors
    ensures r.state != b.state ==> r.startTime == now
    ensures match Transition(b.state, Observe(b.sensors, MAIN_DEADBAND), TimeInState(b.startTime, now))
            case None => r == b
            case Some(target) => r.state == target && r.startTime == now
  {
    match Transition(b.state, Observe(b.sensors, MAIN_DEADBAND), TimeInState(b.startTime, now))
    case None => b
    case Some(target) => ChangeState(b, target, now)
  }

  /** Only Enabled writes the motors, through the mixer with the 77-count deadband. */
  function UpdateOutputs(b: Bot): (r: Bot)
    ensures r.state == b.state && r.startTime == b.startTime && r.sensors == b.sensors
    ensures b.state == Enabled ==> Driving(r.motors)
    ensures b.state == Enabled ==>
              var d := Mix(b.sensors.joyx, b.sensors.joyy, MAIN_DEADBAND);
              r.motors == SetMotorSpeed(d.left, d.right)
    ensures b.state == Enabled && IsJoystickCentered(b.sensors, MAIN_DEADBAND) ==>
              r.motors.left.pulse == NEUTRAL && r.motors.right.pulse == NEUTRAL
    ensures b.state != Enabled ==> r.motors == b.motors
  {
    if b.state == Enabled then
      var d := Mix(b.sensors.joyx, b.sensors.joyy, MAIN_DEADBAND);
      b.(motors := SetMotorSpeed(d.left, d.right))
    else b
  }

  /** Between ticks the motors are stopped outside Enabled, and in Enabled they run
      within the drive limits with the enable line held and the battery above the
      fault level; ControlFault always has a control to release. */
  predicate Safe(b: Bot) {
    && b.sensors.Valid()
    && (b.state != Enabled ==> Stopped(b.motors))
    && (b.state == Enabled ==> Driving(b.motors) && !IsChargeNeeded(b.sensors) && IsEnabled(b.sensors))
    && (b.state == ControlFault ==> IsEnabled(b.sensors) || !IsJoystickCentered(b.sensors, MAIN_DEADBAND))
  }

  /** One pass of the main loop: read, UpdateState, then UpdateOutputs of the new state. */
  function Tick(b: Bot, input: Inputs): (r: Bot)
    requires b.sensors.Valid()
    ensures r.sensors == ReadA2D(b.sensors, input.raw)
    ensures r.state == Enabled ==> b.state == Disabled || b.state == Enabled
    ensures r.state == Enabled ==> Driving(r.motors) && !IsChargeNeeded(r.sensors) && IsEnabled(r.sensors)
    ensures b.state == PowerOn ==> r.state == PowerOn || r.state == Init
    ensures b.state in {Init, Disabled, Enabled, ControlFault} && IsChargeNeeded(r.sensors) ==>
              r.state == BatteryFault && Stopped(r.motors)
    ensures b.state == BatteryFault ==> r.state == BatteryFault && r.motors == b.motors
    ensures r.state == b.state ==> r.startTime == b.startTime
    ensures r.state != b.state ==> r.startTime == input.now
    ensures b.state == Disabled ==>
              (r.state == Enabled <==>
                 !IsChargeNeeded(r.sensors) && IsJoystickCentered(r.sensors, MAIN_DEADBAND) && IsEnabled(r.sensors))
    ensures b.state == Enabled ==>
              (r.state == Disabled <==> !IsChargeNeeded(r.sensors) && !IsEnabled(r.sensors))
    ensures r.state == Enabled ==>
              var d := Mix(r.sensors.joyx, r.sensors.joyy, MAIN_DEADBAND);
              r.motors == SetMotorSpeed(d.left, d.right)
    ensures r.state != Enabled && r.state != b.state ==> Stopped(r.motors)
    ensures Safe(b) ==> Safe(r)
  {
    var read := b.(sensors := ReadA2D(b.sensors, input.raw));
    UpdateOutputs(UpdateState(read, input.now))
  }

  function RunTicks(b: Bot, inputs: seq<Inputs>): (r: Bot)
    requires b.sensors.Valid()
    ensures r.sensors.Valid()
    decreases |inputs|
  {
    if inputs == [] then b else RunTicks(Tick(b, inputs[0]), inputs[1..])
  }

  lemma {:induction false} RunStaysSafe(b: Bot, inputs: seq<Inputs>)
    requires Safe(b)
    ensures Safe(RunTicks(b, inputs))
    decreases |inputs|
  {
    if inputs != [] {
      RunStaysSafe(Tick(b, inputs[0]), inputs[1..]);
    }
  }

  /** Motors never leave neutral until the cart has passed through Disabled into
      Enabled: along any run from power-on, a state other than Enabled has them
      stopped. */
  lemma BootRunIsSafe(now: Millis, inputs: seq<Inputs>)
    ensures Safe(RunTicks(Boot(now), inputs))
  {
    RunStaysSafe(Boot(now), inputs);
  }

  /** BatteryFault is never left and keeps the motors stopped. */
  lemma {:induction false} BatteryFaultIsFinal(b: Bot, inputs: seq<Inputs>)
    requires b.sensors.Valid() && b.state == BatteryFault
    ensures RunTicks(b, inputs).state == BatteryFault && RunTicks(b, inputs).motors == b.motors
    decreases |inputs|
  {
    if inputs != [] {
      BatteryFaultIsFinal(Tick(b, inputs[0]), inputs[1..]);
    }
  }
}

=== FILE: cmath.dfy ===
/** Integer operators with the semantics of C, whose `/` and `%` truncate toward
    zero (Dafny's are Euclidean). */
module CMath {

  function Abs(x: int): (r: int)
    ensures r >= 0 && (r == x || r == -x)
  {
    if x < 0 then -x else x
  }

  /** C's `a / b` for a positive divisor: the quotient rounded toward zero. */
  function TruncDiv(a: int, b: int): (q: int)
    requires b > 0
    ensures a >= 0 ==> 0 <= a - b * q < b
    ensures a < 0 ==> -b < a - b * q <= 0
  {
    if a >= 0 then a / b else -((-a) / b)
  }

  /** C's `a % b` for a positive divisor: the remainder carries the sign of `a`. */
  function TruncMod(a: int, b: int): (m: int)
    requires b > 0
    ensures a == b * TruncDiv(a, b) + m
    ensures a >= 0 ==> 0 <= m < b
    ensures a < 0 ==> -b < m <= 0
  {
    a - b * TruncDiv(a, b)
  }

  /** Truncating division is odd, unlike Euclidean division. */
  lemma TruncDivNegate(a: int, b: int)
    requires b > 0
    ensures TruncDiv(-a, b) == -TruncDiv(a, b)
  {
  }

  /** On non-negative operands the two divisions agree. */
  lemma TruncDivNonNegative(a: int, b: int)
    requires a >= 0 && b > 0
    ensures TruncDiv(a, b) == a / b && TruncMod(a, b) == a % b
  {
  }
}

=== FILE: filter.dfy ===
/** The averaging filter behind the battery and enable readings: a fixed ring of
    NUM_SAMPLES conversions, overwritten one slot per loop tick, whose rounded mean
    is the filtered value. */
module Filter {
  import opened Hardware

  datatype Ring = Ring(samples: seq<Sample>, index: int) {
    /** The buffer always holds exactly NUM_SAMPLES entries and the index names one of them. */
    predicate Valid() {
      |samples| == NUM_SAMPLES && 0 <= index < NUM_SAMPLES
    }
  }

  /** A ring whose every slot holds `x`, as the constructor leaves both buffers. */
  function Filled(x: Sample): (r: Ring)
    ensures r.Valid() && r.index == 0
    ensures forall j | 0 <= j < NUM_SAMPLES :: r.samples[j] == x
  {
    Ring(seq(NUM_SAMPLES, _ => x), 0)
  }

  /** Reduce a position in [0, 2 * NUM_SAMPLES) onto the ring. */
  function Wrap(a: int): (j: int)
    requires 0 <= a < 2 * NUM_SAMPLES
    ensures 0 <= j < NUM_SAMPLES
  {
    if a < NUM_SAMPLES then a else a - NUM_SAMPLES
  }

  lemma WrapIsMod(a: int)
    requires 0 <= a < 2 * NUM_SAMPLES
    ensures Wrap(a) == a % NUM_SAMPLES
  {
  }

  /** How many reads after `start` the slot `j` is written. */
  function Offset(start: int, j: int): (k: int)
    requires 0 <= start < NUM_SAMPLES && 0 <= j < NUM_SAMPLES
    ensures 0 <= k < NUM_SAMPLES && Wrap(start + k) == j
  {
    Wrap(j - start + NUM_SAMPLES)
  }

  /** Store one conversion at the current slot and advance the index, wrapping to 0. */
  function Record(r: Ring, x: Sample): (r': Ring)
    requires r.Valid()
    ensures r'.Valid()
    ensures r'.index == Wrap(r.index + 1)
    ensures r'.samples[r.index] == x
    ensures forall j | 0 <= j < NUM_SAMPLES && j != r.index :: r'.samples[j] == r.samples[j]
  {
    var next := r.index + 1;
    Ring(r.samples[r.index := x], if next >= NUM_SAMPLES then 0 else next)
  }

  /** The index moves one slot forward, modulo NUM_SAMPLES. */
  lemma RecordAdvancesIndex(r: Ring, x: Sample)
    requires r.Valid()
    ensures Record(r, x).index == (r.index + 1) % NUM_SAMPLES
  {
    WrapIsMod(r.index + 1);
  }

  function Sum(s: seq<int>): int
  {
    if s == [] then 0 else Sum(s[..|s| - 1]) + s[|s| - 1]
  }

  lemma {:induction false} SumBounds(s: seq<int>, lo: int, hi: int)
    requires forall i | 0 <= i < |s| :: lo <= s[i] <= hi
    ensures lo * |s| <= Sum(s) <= hi * |s|
  {
    if s != [] {
      SumBounds(s[..|s| - 1], lo, hi);
    }
  }

  /** The filtered reading: the buffer's sum plus half the depth, divided by the depth,
      i.e. the mean rounded half up. */
  function Average(s: seq<Sample>): (avg: int)
    requires |s| == NUM_SAMPLES
    ensures 0 <= avg <= MAX_READING
    ensures avg * NUM_SAMPLES <= Sum(s) + NUM_SAMPLES / 2 < (avg + 1) * NUM_SAMPLES
  {
    SumBounds(s, 0, MAX_READING);
    (Sum(s) + NUM_SAMPLES / 2) / NUM_SAMPLES
  }

  /** The average never leaves the range of the buffered values. */
  lemma AverageWithinBounds(s: seq<Sample>, lo: int, hi: int)
    requires |s| == NUM_SAMPLES
    requires forall i | 0 <= i < |s| :: lo <= s[i] <= hi
    ensures lo <= Average(s) <= hi
  {
    SumBounds(s, lo, hi);
  }

  /** A constant buffer averages to exactly its value. */
  lemma AverageOfConstant(s: seq<Sample>, c: Sample)
    requires |s| == NUM_SAMPLES
    requires forall i | 0 <= i < |s| :: s[i] == c
    ensures Average(s) == c
  {
    AverageWithinBounds(s, c, c);
  }

  /** Feed a sequence of conversions, oldest first. */
  function RecordAll(r: Ring, xs: seq<Sample>): (r': Ring)
    requires r.Valid()
    ensures r'.Valid()
  {
    if xs == [] then r else Record(RecordAll(r, xs[..|xs| - 1]), xs[|xs| - 1])
  }

  /** Up to NUM_SAMPLES reads land in consecutive slots after the starting index,
      leave every other slot alone and move the index by the number of reads. */
  lemma {:induction false} RecordAllContents(r: Ring, xs: seq<Sample>)
    requires r.Valid() && |xs| <= NUM_SAMPLES
    ensures RecordAll(r, xs).index == Wrap(r.index + |xs|)
    ensures forall k | 0 <= k < |xs| :: RecordAll(r, xs).samples[Wrap(r.index + k)] == xs[k]
    ensures forall j | 0 <= j < NUM_SAMPLES && Offset(r.index, j) >= |xs| ::
              RecordAll(r, xs).samples[j] == r.samples[j]
  {
    if xs != [] {
      var n := |xs| - 1;
      var front := xs[..n];
      RecordAllContents(r, front);
      var mid := RecordAll(r, front);
      var slot := Wrap(r.index + n);
      assert mid.index == slot;
      forall k | 0 <= k < |xs|
        ensures RecordAll(r, xs).samples[Wrap(r.index + k)] == xs[k]
      {
        if k < n {
          assert Wrap(r.index + k) != slot;
          assert front[k] == xs[k];
        }
      }
      forall j | 0 <= j < NUM_SAMPLES && Offset(r.index, j) >= |xs|
        ensures RecordAll(r, xs).samples[j] == r.samples[j]
      {
        assert j != slot;
      }
    }
  }

  /** After NUM_SAMPLES reads every slot holds one of them: nothing that was in the
      buffer before survives (in particular none of the initial VBAT_MAX entries). */
  lemma FlushAfterFullWindow(r: Ring, xs: seq<Sample>)
    requires r.Valid() && |xs| == NUM_SAMPLES
    ensures RecordAll(r, xs).index == r.index
    ensures forall j | 0 <= j < NUM_SAMPLES :: RecordAll(r, xs).samples[j] == xs[Offset(r.index, j)]
  {
    RecordAllContents(r, xs);
  }

  /** Consequently NUM_SAMPLES identical reads make the filter report exactly that value. */
  lemma SteadyInputSettles(r: Ring, xs: seq<Sample>, c: Sample)
    requires r.Valid() && |xs| == NUM_SAMPLES
    requires forall k | 0 <= k < |xs| :: xs[k] == c
    ensures Average(RecordAll(r, xs).samples) == c
  {
    FlushAfterFullWindow(r, xs);
    AverageOfConstant(RecordAll(r, xs).samples, c);
  }
}

=== FILE: format.dfy ===
/** The Test state's fixed-width integer field: `itoa4` writes a value right-aligned
    into four characters, blank-padded, or four dashes when it does not fit. */
module Format {
  import opened CMath

  /** `'0' + d` for a C remainder digit (negative for negative values). */
  function DigitChar(d: int): (c: char)
    requires -9 <= d <= 9
    ensures 0 <= d ==> '0' <= c <= '9' && c as int - '0' as int == d
  {
    ('0' as int + d) as char
  }

  /** The firmware's digit-by-digit formatting with C's truncating `/` and `%`:
      the ones digit is always written, each higher digit only while the quotient
      is non-zero, blanks fill the rest, and a fifth digit turns the field to dashes. */
  function Itoa4(n: int): (buf: string)
    ensures |buf| == 4
    ensures n >= 10000 || n <= -10000 ==> buf == "----"
  {
    var d3 := DigitChar(TruncMod(n, 10));
    var n1 := TruncDiv(n, 10);
    if n1 == 0 then "   " + [d3]
    else
      var d2 := DigitChar(TruncMod(n1, 10));
      var n2 := TruncDiv(n1, 10);
      if n2 == 0 then "  " + [d2, d3]
      else
        var d1 := DigitChar(TruncMod(n2, 10));
        var n3 := TruncDiv(n2, 10);
        if n3 == 0 then " " + [d1, d2, d3]
        else
          var d0 := DigitChar(TruncMod(n3, 10));
          if TruncDiv(n3, 10) != 0 then "----" else [d0, d1, d2, d3]
  }

  /** Reference rendering: the usual decimal digits of a natural number. */
  function Decimal(n: nat): (s: string)
    ensures |s| >= 1
    ensures forall i | 0 <= i < |s| :: '0' <= s[i] <= '9'
    ensures s[0] == '0' ==> n == 0
  {
    if n < 10 then [DigitChar(n)] else Decimal(n / 10) + [DigitChar(n % 10)]
  }

  /** Reads a string of decimal digits back into a number. */
  function Value(s: string): int
  {
    if s == [] then 0 else 10 * Value(s[..|s| - 1]) + (s[|s| - 1] as int - '0' as int)
  }

  lemma {:induction false} DecimalRoundTrip(n: nat)
    ensures Value(Decimal(n)) == n
  {
    if n >= 10 {
      DecimalRoundTrip(n / 10);
      var s := Decimal(n);
      assert s[..|s| - 1] == Decimal(n / 10);
    }
  }

  function Blanks(k: nat): (s: string)
    ensures |s| == k && forall i | 0 <= i < k :: s[i] == ' '
  {
    seq(k, _ => ' ')
  }

  /** In range, the field is the decimal rendering right-aligned in four columns:
      no leading zeros, blanks on the left (0 shows as "   0"). */
  lemma Itoa4RightAligned(n: int)
    requires 0 <= n <= 9999
    ensures |Decimal(n)| <= 4
    ensures Itoa4(n) == Blanks(4 - |Decimal(n)|) + Decimal(n)
  {
    var n1 := n / 10;
    var n2 := n1 / 10;
    var n3 := n2 / 10;
    TruncDivNonNegative(n, 10);
    TruncDivNonNegative(n1, 10);
    TruncDivNonNegative(n2, 10);
    TruncDivNonNegative(n3, 10);
    var c0, c1, c2, c3 := DigitChar(n3 % 10), DigitChar(n2 % 10), DigitChar(n1 % 10), DigitChar(n % 10);
    if n1 == 0 {
      assert Decimal(n) == [c3];
    } else if n2 == 0 {
      assert Decimal(n1) == [c2];
      assert Decimal(n) == [c2, c3];
    } else if n3 == 0 {
      assert Decimal(n2) == [c1];
      assert Decimal(n1) == [c1, c2];
      assert Decimal(n) == [c1, c2, c3];
    } else {
      assert n3 < 10;
      assert Decimal(n3) == [c0];
      assert Decimal(n2) == [c0, c1];
      assert Decimal(n1) == [c0, c1, c2];
      assert Decimal(n) == [c0, c1, c2, c3];
      assert Itoa4(n) == [c0, c1, c2, c3];
    }
  }

  /** Whatever the field shows for an in-range value reads back as that value once the
      padding is dropped. */
  lemma Itoa4RoundTrip(n: int)
    requires 0 <= n <= 9999
    ensures var buf := Itoa4(n); var k := 4 - |Decimal(n)|;
            0 <= k <= 3 && buf[..k] == Blanks(k) && Value(buf[k..]) == n
  {
    Itoa4RightAligned(n);
    DecimalRoundTrip(n);
    var k := 4 - |Decimal(n)|;
    assert Itoa4(n)[k..] == Decimal(n);
  }
}

=== FILE: hardware.dfy ===
/** Constants of the cart firmware: A/D thresholds, joystick deadbands, servo pulse
    limits, loop timings and the two custom LCD glyphs used by the fuel gauge. */
module Hardware {

  /** Depth of the battery/enable averaging buffers (CartBot.h). */
  const NUM_SAMPLES: int := 50

  /** Largest value the 10-bit A/D converter returns. */
  const MAX_READING: int := 1023

  /** Joystick mid-scale reading. */
  const CENTER: int := 512

  // Battery thresholds in A/D counts (10k/5.1k divider, 5.00 V reference).
  const VBAT_MIN: int := 726   // 10.5 V
  const VBAT_LOW: int := 774   // 11.2 V
  const VBAT_MAX: int := 1023  // 14.8 V

  /** Half-width of the joystick neutral zone: the control firmware uses 85,
      the older main firmware 77. */
  const CONTROL_DEADBAND: int := 85
  const MAIN_DEADBAND: int := 77

  // Servo pulse widths in microseconds.
  const FORWARD_LIMIT: int := 1800
  const REVERSE_LIMIT: int := 1300
  const NEUTRAL: int := 1500

  /** Literal pulse written by the Enabled state's entry action (ten times neutral). */
  const ENABLED_ENTRY_PULSE: int := 15000

  // Pulses used by the Test state's three-level mapping.
  const TEST_REVERSE: int := 1000
  const TEST_FORWARD: int := 2000

  /** Debounce window of the test button, in loop ticks. */
  const DEBOUNCE_TIME: int := 5

  // State timeouts in milliseconds.
  const POWER_ON_TIME: int := 5000
  const INIT_TIME: int := 2000

  /** Custom LCD glyphs drawn by the fuel gauge. */
  const CHAR_VERTICAL: char := 6 as char
  const CHAR_HORIZONTAL: char := 7 as char

  /** One A/D conversion. */
  type Sample = x: int | 0 <= x <= MAX_READING

  /** A value of the 32-bit unsigned millisecond clock. */
  const CLOCK_MODULUS: int := 0x1_0000_0000
  type Millis = x: int | 0 <= x < CLOCK_MODULUS
}

=== FILE: mixer.dfy ===
/** The differential-drive mixer run by the Enabled state every tick: both joystick
    axes lose their deadband, the turn term is a third of the sideways deflection,
    and each side is clamped to the servo limits after the two terms are combined. */
module Mixer {
  import opened Hardware
  import opened CMath

  /** Deflection of one axis beyond the deadband, signed; zero inside it (inclusive). */
  function DeadbandAxis(v: int, deadband: int): (d: int)
    ensures d > 0 <==> v > CENTER + deadband
    ensures deadband >= 0 ==> (d < 0 <==> v < CENTER - deadband)
    ensures deadband >= 0 ==> (d == 0 <==> Abs(v - CENTER) <= deadband)
    ensures deadband >= 0 ==> Abs(d) == if Abs(v - CENTER) > deadband then Abs(v - CENTER) - deadband else 0
  {
    if v > CENTER + deadband then v - (CENTER + deadband)
    else if v < CENTER - deadband then v - (CENTER - deadband)
    else 0
  }

  /** The firmware's two sequential clamps: first the forward limit, then the reverse one. */
  function Limit(speed: int): (r: int)
    ensures REVERSE_LIMIT <= r <= FORWARD_LIMIT
    ensures REVERSE_LIMIT <= speed <= FORWARD_LIMIT ==> r == speed
    ensures speed > FORWARD_LIMIT ==> r == FORWARD_LIMIT
    ensures speed < REVERSE_LIMIT ==> r == REVERSE_LIMIT
  {
    var s := if speed > FORWARD_LIMIT then FORWARD_LIMIT else speed;
    if s < REVERSE_LIMIT then REVERSE_LIMIT else s
  }

  lemma LimitMonotone(a: int, b: int)
    requires a <= b
    ensures Limit(a) <= Limit(b)
  {
  }

  /** The Enabled state's computed fields. */
  datatype Drive = Drive(forward: int, turn: int, left: int, right: int)

  function Mix(joyx: int, joyy: int, deadband: int): (d: Drive)
    ensures REVERSE_LIMIT <= d.left <= FORWARD_LIMIT && REVERSE_LIMIT <= d.right <= FORWARD_LIMIT
    ensures d.forward == DeadbandAxis(joyy, deadband) && d.turn == DeadbandAxis(joyx, deadband)
    ensures d.left == Limit(NEUTRAL + d.forward + TruncDiv(d.turn, 3))
    ensures d.right == Limit(NEUTRAL + d.forward - TruncDiv(d.turn, 3))
    ensures d.turn <= -3 && d.left < FORWARD_LIMIT && d.right > REVERSE_LIMIT ==> d.left < d.right
    ensures d.turn >= 3 && d.right < FORWARD_LIMIT && d.left > REVERSE_LIMIT ==> d.left > d.right
    ensures d.turn < 0 ==> d.left <= d.right
    ensures d.turn > 0 ==> d.left >= d.right
    ensures d.turn == 0 ==> d.left == d.right
    ensures Abs(joyx - CENTER) <= deadband && Abs(joyy - CENTER) <= deadband ==>
              d.left == NEUTRAL && d.right == NEUTRAL
  {
    var forward := DeadbandAxis(joyy, deadband);
    var turn := DeadbandAxis(joyx, deadband);
    var steer := TruncDiv(turn, 3);
    Drive(forward, turn, Limit(NEUTRAL + forward + steer), Limit(NEUTRAL + forward - steer))
  }

  /** Mirroring the stick about mid-scale swaps the two sides exactly. This relies on
      the division truncating toward zero: with floor division a left turn would
      steer one count harder than the mirrored right turn. */
  lemma MixMirror(joyx: int, joyy: int, deadband: int)
    requires deadband >= 0
    ensures Mix(2 * CENTER - joyx, joyy, deadband).left == Mix(joyx, joyy, deadband).right
    ensures Mix(2 * CENTER - joyx, joyy, deadband).right == Mix(joyx, joyy, deadband).left
  {
    var t := DeadbandAxis(joyx, deadband);
    assert DeadbandAxis(2 * CENTER - joyx, deadband) == -t;
    TruncDivNegate(t, 3);
  }

  /** Pushing the stick further forward never slows either side. */
  lemma MixForwardMonotone(joyx: int, y1: int, y2: int, deadband: int)
    requires deadband >= 0 && y1 <= y2
    ensures Mix(joyx, y1, deadband).left <= Mix(joyx, y2, deadband).left
    ensures Mix(joyx, y1, deadband).right <= Mix(joyx, y2, deadband).right
  {
    var f1, f2 := DeadbandAxis(y1, deadband), DeadbandAxis(y2, deadband);
    assert f1 <= f2;
    var steer := TruncDiv(DeadbandAxis(joyx, deadband), 3);
    LimitMonotone(NEUTRAL + f1 + steer, NEUTRAL + f2 + steer);
    LimitMonotone(NEUTRAL + f1 - steer, NEUTRAL + f2 - steer);
  }
}

=== FILE: testmode.dfy ===
/** The Test state's logic: a debounced push button that cycles the diagnostic
    display through three modes, and a three-level open-loop motor mapping. */
module TestMode {
  import opened Hardware

  /** The Test state's persistent fields. */
  datatype Debouncer = Debouncer(displayMode: int, buttonPressed: bool, debounce: int) {
    predicate Valid() {
      0 <= displayMode <= 2 && 0 <= debounce <= DEBOUNCE_TIME
    }
  }

  /** Fields as the Test state's entry action sets them: the button that selected the
      Test state is taken as already pressed. */
  const Entry: Debouncer := Debouncer(0, true, 0)

  /** One tick of the debounce counter: any non-zero count drops by one, zero stays put. */
  function Countdown(debounce: int): (r: int)
    ensures debounce >= 0 ==> 0 <= r && (r == 0 <==> debounce <= 1)
    ensures debounce != 0 ==> r == debounce - 1
    ensures debounce == 0 ==> r == 0
  {
    if debounce != 0 then debounce - 1 else debounce
  }

  /** The next display mode: one higher, wrapping past 2 back to 0. */
  function NextMode(mode: int): (r: int)
    ensures r != mode
    ensures mode >= -1 ==> 0 <= r <= 2
    ensures 0 <= mode <= 2 ==> r == (mode + 1) % 3
  {
    if mode + 1 > 2 then 0 else mode + 1
  }

  /** Whether this tick advances the mode: a released-to-pressed edge with the
      debounce window already over. */
  predicate Advances(d: Debouncer, pressed: bool) {
    pressed && !d.buttonPressed && Countdown(d.debounce) == 0
  }

  /** One tick of the Test state's UpdateState. */
  function Step(d: Debouncer, pressed: bool): (r: Debouncer)
    ensures r.buttonPressed == pressed
    ensures r.displayMode != d.displayMode <==> Advances(d, pressed)
    ensures Advances(d, pressed) ==> r.displayMode == NextMode(d.displayMode)
    ensures pressed != d.buttonPressed ==> r.debounce == DEBOUNCE_TIME
    ensures pressed == d.buttonPressed ==> r.debounce == Countdown(d.debounce)
    ensures d.Valid() ==> r.Valid()
  {
    var countdown := Countdown(d.debounce);
    if pressed then
      if !d.buttonPressed then
        Debouncer(if countdown == 0 then NextMode(d.displayMode) else d.displayMode, true, DEBOUNCE_TIME)
      else
        d.(debounce := countdown)
    else if d.buttonPressed then
      Debouncer(d.displayMode, false, DEBOUNCE_TIME)
    else
      d.(debounce := countdown)
  }

  /** Feed one button sample per tick, oldest first. */
  function StepAll(d: Debouncer, presses: seq<bool>): (r: Debouncer)
    ensures d.Valid() ==> r.Valid()
    decreases |presses|
  {
    if presses == [] then d else StepAll(Step(d, presses[0]), presses[1..])
  }

  /** A button still held from before (as on entry) never advances the mode, however
      long it is held. */
  lemma {:induction false} HeldButtonNeverAdvances(d: Debouncer, presses: seq<bool>)
    requires d.buttonPressed
    requires forall i | 0 <= i < |presses| :: presses[i]
    ensures StepAll(d, presses).displayMode == d.displayMode
    decreases |presses|
  {
    if presses != [] {
      HeldButtonNeverAdvances(Step(d, presses[0]), presses[1..]);
    }
  }

  /** Number of coming ticks guaranteed not to advance the mode: a pressed button
      still needs a release edge and a full window; a released one needs its running
      window to expire. */
  function Quiet(d: Debouncer): int {
    if d.buttonPressed then DEBOUNCE_TIME else d.debounce - 1
  }

  lemma StepKeepsQuiet(d: Debouncer, pressed: bool)
    requires d.Valid() && Quiet(d) >= 1
    ensures !Advances(d, pressed)
    ensures Quiet(Step(d, pressed)) >= Quiet(d) - 1
  {
  }

  lemma {:induction false} QuietTicksDoNotAdvance(d: Debouncer, presses: seq<bool>)
    requires d.Valid() && |presses| <= Quiet(d)
    ensures StepAll(d, presses).displayMode == d.displayMode
    decreases |presses|
  {
    if presses != [] {
      StepKeepsQuiet(d, presses[0]);
      QuietTicksDoNotAdvance(Step(d, presses[0]), presses[1..]);
    }
  }

  /** After the mode advances, the next DEBOUNCE_TIME ticks cannot advance it again,
      whatever the button does: a bounce of release and re-press inside the window
      is absorbed. */
  lemma NoDoubleAdvance(d: Debouncer, pressed: bool, later: seq<bool>)
    requires d.Valid() && Advances(d, pressed)
    requires |later| <= DEBOUNCE_TIME
    ensures StepAll(Step(d, pressed), later).displayMode == NextMode(d.displayMode)
  {
    QuietTicksDoNotAdvance(Step(d, pressed), later);
  }

  ///////////////////////////////////////////////////////////////////

  datatype Speeds = Speeds(left: int, right: int)

  /** Reverse, neutral or forward pulse from the forward axis alone. */
  function Level(joyy: int, deadband: int): (p: int)
    ensures p == TEST_REVERSE || p == NEUTRAL || p == TEST_FORWARD
    ensures p == TEST_REVERSE <==> joyy < CENTER - deadband
    ensures deadband >= 0 ==> (p == TEST_FORWARD <==> joyy > CENTER + deadband)
  {
    if joyy < CENTER - deadband then TEST_REVERSE
    else if joyy > CENTER + deadband then TEST_FORWARD
    else NEUTRAL
  }

  /** The Test state's outputs: a side runs at the forward-axis level unless the stick
      is pushed hard toward the other side, which holds it at neutral. */
  function TestDrive(joyx: int, joyy: int, deadband: int): (s: Speeds)
    ensures s.left in {TEST_REVERSE, NEUTRAL, TEST_FORWARD} && s.right in {TEST_REVERSE, NEUTRAL, TEST_FORWARD}
    ensures s.left != NEUTRAL ==> joyx < CENTER + deadband && s.left == Level(joyy, deadband)
    ensures s.right != NEUTRAL ==> joyx > CENTER - deadband && s.right == Level(joyy, deadband)
    ensures joyx < CENTER + deadband ==> s.left == Level(joyy, deadband)
    ensures joyx > CENTER - deadband ==> s.right == Level(joyy, deadband)
    ensures CENTER - deadband < joyx < CENTER + deadband ==> s.left == s.right == Level(joyy, deadband)
    ensures deadband >= 0 && CENTER - deadband <= joyy <= CENTER + deadband ==> s.left == s.right == NEUTRAL
  {
    var level := Level(joyy, deadband);
    Speeds(if joyx < CENTER + deadband then level else NEUTRAL,
           if joyx > CENTER - deadband then level else NEUTRAL)
  }

  /** Mirroring the stick about mid-scale swaps the two sides of the test mapping. */
  lemma TestDriveMirror(joyx: int, joyy: int, deadband: int)
    ensures TestDrive(2 * CENTER - joyx, joyy, deadband).left == TestDrive(joyx, joyy, deadband).right
    ensures TestDrive(2 * CENTER - joyx, joyy, deadband).right == TestDrive(joyx, joyy, deadband).left
  {
  }
}
